=== FILE: README.md ===
# amplet-sh: connection lifecycle and dispatch, modelled in Dafny

amplet-sh has two parts. A host agent streams hardware snapshots over a
WebSocket to a collector. The collector authenticates each agent by token
against a fleet registry and stores the snapshots in a time-series table.
This project models the decision logic of both sides and proves properties
about it:

- **Agent configuration** (`agent_config.dfy`). `readToken` and
  `readServerURL` scan a file's lines for the first line that starts with a
  fixed prefix. For the server URL, a non-empty environment variable comes
  first.
- **Agent session** (`agent_session.dfy`). `runSession` rewrites the
  configured server URL into the collector endpoint: `http`→`ws`,
  `https`→`wss`, path `/ws/agent`, query `token`. It then dials and sends one
  stats message per tick. It stops when a write fails, or on cancellation,
  when it first attempts a close frame with status 1000.
- **Agent reconnect loop** (`agent_backoff.dfy`). `connectLoop` keeps one
  mutable backoff delay. The delay starts at 2 s and is reset to 2 s after a
  session that lasted at least 30 s. After every completed sleep it is
  doubled, capped at 60 s. The loop checks for cancellation in three places.
- **Collector storage decisions** (`server_db.dfy`):
  - `envOr`;
  - `validateAndRegister`, a decision tree over the fleet registry that either
    admits the token and marks its enquiry CONNECTED, or rejects it and marks
    an overdue one EXPIRED;
  - `saveHardwareConfig`, which strips the keys `type` and `token` from the
    decoded object before storing it;
  - `insertStats`, which replaces a zero timestamp with the current time.
  - The registry is a class holding a `map` from token to record. The
    time-series store is a class holding a `seq` of rows.
- **Collector connection handler** (`server_ws.dfy`). The handler returned by
  `makeWSHandler` works in three stages:
  - a token gate before the WebSocket upgrade;
  - a read loop whose read deadline is 30 s after the last pong or message;
  - dispatch on the envelope's `type`: exactly `"config"` saves configuration,
    and anything else is decoded as stats and stored under the connection's
    own token.

Both loops (`connectLoop` with `runSession`'s tick loop, and the handler's read
loop) are imperative methods. Each is proved equal to a recursive reference
function over its inputs: `Reconnect`, `Ticks` and `Serve`/`RowsOf`/`ConfigsOf`.
The properties are proved as lemmas about those functions.

The model abstracts the following:

- **Clocks.** Time is a natural number of milliseconds. Go's zero `time.Time`
  is the reading 0.
- **Timers, the context and the network.** These become finite input
  sequences, one entry per observable event: rounds of the reconnect loop,
  ticks and cancellation of a session, and inbound frames of a connection.
  When the supplied inputs run out, the loops report `Exhausted`, `StillOpen`
  or `InputEnded`.
- **Database, dialer, upgrader and JSON decoders.** Each is a parameter:
  whether a call fails, the parsed URL, and a message as each decoder sees it.

## Model

| member | source | states |
|---|---|---|
| AgentConfig.LookupIsFirstMatch | agent.go:137-143 | The value found is the remainder, after the prefix, of the first line that starts with the prefix. Nothing is found exactly when no line starts with it. |
| AgentConfig.ScanFor | agent.go:136-143 | The scanning loop returns the remainder of the first matching line, or "" when no line matches. |
| AgentConfig.ReadToken | agent.go:130-144 | The result is "" when the token file cannot be opened. Otherwise it is the remainder of the first `AMPLET_TOKEN=` line, or "" when there is none. |
| AgentConfig.ReadServerURL | agent.go:146-162 | A non-empty `AMPLET_SERVER_URL` variable wins. Otherwise the result is the first `AMPLET_SERVER_URL=` line of the config file, and "" when the file is missing or has no such line. |
| AgentConfig.EmptyTokenLineWins | agent.go:137-141 | A first token line with nothing after `=` yields the empty token, even when later lines carry one. |
| AgentSession.AgentURL | agent.go:86-95 | `https` becomes `wss` and `http` becomes `ws`; any other scheme is kept. The path becomes `/ws/agent` and the query key `token` is set to exactly the token. Every other query key, and userinfo, host and fragment, are kept. |
| AgentSession.AgentURLIdempotent | agent.go:86-95 | Rewriting an already rewritten URL with the same token changes nothing. |
| AgentSession.AgentURLKeepsTls | agent.go:86-91 | The endpoint uses `wss` exactly when the configured URL used `https` or `wss`, and `ws` exactly for `http` or `ws`. |
| AgentSession.TicksSendDeliverable | agent.go:107-127 | Every message written carries the session's token. What is written is a prefix of the snapshots the ticks produced before cancellation, and all of them unless a write failed. A status-1000 close frame is attempted exactly when the loop ends by cancellation. The loop only ends by a write failure or by cancellation. |
| AgentSession.SkippedTicksKeepSession | agent.go:113-122 | A failed snapshot or a failed marshal only skips its tick. With no cancellation and no failed write of a produced message, the session stays open and sends every successful snapshot, whatever the skipped ticks would have met. |
| AgentSession.WriteFailureEnds | agent.go:123-125 | The first failed write ends the session with an error. Only the earlier messages were sent, and no later tick is served. |
| AgentSession.CancellationClosesSession | agent.go:109-112 | Cancellation ends the session without error. A status-1000 close frame with reason "agent shutting down" is attempted whether or not that write succeeds. Every earlier snapshot was sent, and no later tick is served. |
| AgentSession.RunSession | agent.go:81-128 | An unparseable URL fails before any dial. A parsed URL is dialled as rewritten by AgentURL, and a failed dial ends the session with an error and nothing sent. Otherwise the sent messages, the close frame and the outcome are those of the reference tick loop. |
| AgentBackoff.Grow | agent.go:72-77 | Below the cap the backoff becomes min(2·backoff, cap). At or above the cap it does not change. It never shrinks, and a backoff within the cap stays within it. |
| AgentBackoff.ConnectLoop | agent.go:47-79 | The loop starts the same sessions, sleeps the same delays and stops for the same reason as the reference definition, starting from the minimum backoff. |
| AgentBackoff.SleepsBounded | agent.go:48-77 | Every delay slept lies within [2 s, 60 s], and there is at most one sleep per session started. |
| AgentBackoff.StableSessionResets | agent.go:54-70 | After a session that lasted at least 30 s, the next sleep is exactly 2 s, whatever the previous delay. |
| AgentBackoff.ConsecutiveSleeps | agent.go:61-77 | Each sleep is the previous one grown by doubling up to the cap, unless the session in between was stable, in which case it is 2 s. |
| AgentBackoff.ScheduleClosedForm | agent.go:72-77 | Growing the minimum k times gives min(60 s, 2 s·2^k). |
| AgentBackoff.ScheduleValues | agent.go:72-77 | The schedule is 2, 4, 8, 16 and 32 s, then 60 s from then on. |
| AgentBackoff.ShortSessionsFollowSchedule | agent.go:47-79 | Consecutive short, uncancelled sessions sleep along that schedule, one sleep per session. |
| AgentBackoff.OnlyCancellationStops | agent.go:49-78 | With no cancellation, every round dials and sleeps. No session outcome stops the loop. |
| AgentBackoff.CancellationStops | agent.go:50-68 | Cancellation first seen in round j stops the loop there with that reason. No later session is started, and that round's sleep begins only when cancellation arrived during it. |
| AgentBackoff.EndingIsIrrelevant | agent.go:54-63 | How a session ended (bad URL, dial failure or write failure) does not affect the trace. Only durations and cancellation do. |
| ServerDb.EnvOr | cmd/server/db.go:14-19 | The result is the variable's value when it is set and non-empty, and the default otherwise. An empty result means the default was empty. |
| ServerDb.StripReserved | cmd/server/db.go:163-164 | The stored object has no `type` or `token` key. Every other key keeps its value, and no key is added. |
| ServerDb.StripIdempotent | cmd/server/db.go:163-164 | Stripping an already stripped object changes nothing. |
| ServerDb.StripKeepsCleanObject | cmd/server/db.go:163-164 | An object without reserved keys is stored unchanged. |
| ServerDb.MarkExpired | cmd/server/db.go:148-148 | Every row of the enquiry becomes EXPIRED with its other columns kept. All other rows are untouched. |
| ServerDb.MarkConnected | cmd/server/db.go:151-154 | Every row of the enquiry becomes CONNECTED with the software marked installed. All other rows are untouched. |
| ServerDb.AdmitExactlyLive | cmd/server/db.go:129-156 | A token is admitted if and only if its record exists, is not EXPIRED and is not past expiry (now == expiresAt is still valid), and neither statement fails. An admitted record is then CONNECTED and installed. |
| ServerDb.RegisterFrame | cmd/server/db.go:144-155 | Registration never adds or removes rows. It never changes an enquiry id, an expiry or a config, and it leaves rows of other enquiries untouched. |
| ServerDb.RejectionConnectsNothing | cmd/server/db.go:138-150 | A rejected token leaves every row as it was, or only marks it EXPIRED. |
| ServerDb.ExpiredStaysExpired | cmd/server/db.go:144-155 | When enquiry ids are unique, an EXPIRED row stays EXPIRED, whoever registers. |
| ServerDb.ExpiresOnce | cmd/server/db.go:144-150 | When the first attempt's lookup and UPDATE succeed and the later lookups succeed: an overdue token is rejected with "token expired" and marked EXPIRED by the first attempt, and every later attempt is rejected the same way and writes nothing. (If that UPDATE fails, its error is ignored, the row stays unmarked and the next attempt tries again; a failed lookup answers "db lookup" instead.) |
| ServerDb.Registry.ValidateAndRegister | cmd/server/db.go:129-156 | The error returned and the new registry are those of the decision tree. A lookup failure gives "db lookup". An unknown token gives "invalid token". An already EXPIRED record gives "token expired" with no write. An overdue record gives "token expired" and is marked EXPIRED, ignoring the update's error. Otherwise the record is marked CONNECTED, and the result is the update's error. |
| ServerDb.ApplyConfig | cmd/server/db.go:169-172 | Only the row with the token gets the stripped configuration. All other rows are unchanged, and an unknown token changes nothing. |
| ServerDb.Registry.SaveHardwareConfig | cmd/server/db.go:158-174 | A message that is not a JSON object gives "invalid config json" and updates nothing. A failed update changes nothing. Otherwise the token's row holds the object without `type` and `token`. |
| ServerDb.Stamp | cmd/server/db.go:109-114 | A zero timestamp is replaced by the current time and a non-zero one is kept. The stored time is non-zero whenever the clock is. The token and readings are written unchanged. |
| ServerDb.TimeSeries.InsertStats | cmd/server/db.go:106-120 | Exactly the stamped row is appended when the insert succeeds. Nothing changes when it fails. |
| ServerWs.RouteOf | cmd/server/ws.go:90-100 | Only a `type` exactly equal to "config" routes to configuration. Any other value, including an absent one, routes to stats. An envelope that does not decode is dropped. |
| ServerWs.ReadError | cmd/server/ws.go:48-75 | A pong or a message within the read limit is delivered exactly when it arrives by the deadline. Arriving late is a timeout, a message over 64 KiB arriving in time is too large, and a broken transport is a read failure. |
| ServerWs.ServeWithin | cmd/server/ws.go:66-75 | The loop never handles more events than arrive. It ends by exhausting the input only after handling all of them. |
| ServerWs.TimelyTrafficKeepsOpen | cmd/server/ws.go:49-77 | The connection stays open for all its events when each pong or message arrives within 30 s of the previous activity (or of the upgrade) and fits the limit. |
| ServerWs.SilenceTimesOut | cmd/server/ws.go:49-77 | The first event arriving more than 30 s after the previous activity ends the loop with a read timeout, having handled exactly the events before it. |
| ServerWs.RowsCarryToken | cmd/server/ws.go:101-108 | Every stored stats row carries the connection's authenticated token, whatever token its payload claimed. |
| ServerWs.StoredRowsInArrivalOrder | cmd/server/ws.go:99-113 | Whatever other messages lie between them, each decodable stats message whose insert succeeds gives one row, stamped from that message. The rows come in arrival order: the row of such a message follows the rows of the storing messages before it. There are exactly as many rows as storing messages, so no other message adds one. |
| ServerWs.EveryStoredStatsMessageIsARow | cmd/server/ws.go:99-113 | When every message is a decodable stats message whose insert succeeds, row i is the stamp of message i. |
| ServerWs.ConfigsStayClean | cmd/server/ws.go:91-97 | Handling messages only ever changes the authenticated token's row and never stores a `type` or `token` key. |
| ServerWs.RowlessHead | cmd/server/ws.go:83-86 | An event that stores no row does not affect the rows stored for the events after it. |
| ServerWs.MalformedMessageIsDropped | cmd/server/ws.go:77-86 | A message whose envelope does not decode still refreshes the deadline and the session goes on. The later messages are stored exactly as if it had never been sent. |
| ServerWs.TimelyStatsAreAllStored | cmd/server/ws.go:66-113 | Timely, decodable stats messages whose inserts succeed are all handled. Row i is the stamp of message i under the connection's token. |
| ServerWs.Dispatch | cmd/server/ws.go:79-113 | One message appends exactly its row to the store, or changes exactly its configuration in the registry, or does nothing. It never ends the session. |
| ServerWs.ReadLoop | cmd/server/ws.go:66-114 | The read loop stops where the reference definition stops, for the same reason. The store and registry then reflect exactly the events handled before the stop, in arrival order. |
| ServerWs.HandleConnection | cmd/server/ws.go:21-115 | A missing token gives a 401 with body "missing token", no registry call and no upgrade. A rejected token gives a 401 whose body is the registration error's text, with only the registration's writes and no upgrade. A failed upgrade changes nothing more. Otherwise the connection is served by the read loop, with a first deadline 30 s after the upgrade. |

## Left out

- Hardware sampling (`stats.go`) is not part of this model. A snapshot is an input `Option<Readings>` carrying only its integer readings. Its floating-point percentages, the CPU figures and the GPU usage and temperature are dropped.
- The collector's ping task (cmd/server/ws.go:56-64) is concurrent and is not modelled. Its only observable effect is whether pongs arrive, and those are inputs.
- `url.Parse`, query encoding and parameter order are not modelled. The parsed URL is an input, and `Url` keeps the query as a map from key to values.
- `Url` has no opaque part. A URL without `//`, such as `localhost:8080`, parses with an opaque part, and `String()` then drops the new path. The model always dials `/ws/agent`; in the source such a dial fails anyway.
- `RunSession`'s dial outcome is an input, so the model allows a successful dial for any scheme. The source's dialer refuses every scheme except `ws` and `wss`; no property proved here depends on the scheme.
- The `encoding/json` library is not modelled. A message is given as each decoder sees it: the envelope's type, the message as an object, and the message as a stats payload. JSON `null`, which Go decodes into a nil map that is then stored as `null`, is not distinguished from an object.
- The `json.Marshal` failure in `saveHardwareConfig` (cmd/server/db.go:165-168) cannot happen for a decoded map and is not modelled.
- The agent's `json.Marshal` failure is an input flag on each tick.
- SQL text, pgx, `dbDSN`, `fleetTable`, `openDB`, `migrateDB` and both `main.go` files are not part of this model. Database failures are fault flags.
- `AuthError.Text`: "db lookup: query failed" and "update failed" stand in for the driver's error text, which is not modelled. `http.Error` writes the body followed by a newline; the model's 401 bodies leave the newline out.
- The 5-second timeouts on the registry and store calls are folded into the fault flags.
- Logging is not modelled.
- `runAgent` is not modelled: its exit on an empty token or URL, its signal wiring and `os.Exit`. The model starts at `connectLoop`.
- The `bufio.Scanner` limit on line length is not modelled: a file is its sequence of lines.
- The upgrader's `CheckOrigin` and buffer sizes are not modelled. The upgrade's success is an input.
- The deadline refresh uses the event's arrival time. The source reads `time.Now()` just after the read, a moment later.
- `insertStats` reads `time.Now()` at insert time; the model uses the arrival time of the message.
- The `uint64`→`int64` casts of the byte counts (cmd/server/db.go:115-116) are not modelled: readings are unbounded naturals.
- Pongs are handled inside `ReadMessage` in the source; in the model each pong is one event of the read loop, counted in `handled`.
- AgentBackoff.ConnectLoop: its contract ties the loop to `Reconnect`. The bounds on the delays, [2 s, 60 s], are stated separately by `SleepsBounded` and are not part of the method's own contract.
- ServerDb.ExpiredStaysExpired: assumes no two tokens share an enquiry id. The source updates by enquiry id, so if one did, admitting one token would also mark the other token's EXPIRED row CONNECTED.
- Time-dependent behaviour is followed only for as many rounds, ticks or frames as the inputs supply. Unbounded runs are not modelled.
- The code sleeps the current delay and doubles it afterwards. So the first sleep is 2 s, and a stable session is followed by a 2 s sleep and then a 4 s one if the next session is short.
- The 5 s tick period of the session loop is not modelled: the time of each tick is an input.

=== FILE: agent_backoff.dfy ===
/**
 * The agent's reconnect loop (agent.go, connectLoop): run a session, and when
 * it ends without cancellation sleep for the current backoff before the next
 * one.  The backoff starts at the minimum, is reset to the minimum after a
 * session that lasted at least StableAfter, and doubles (capped) after every
 * completed sleep.
 *
 * The clock and the context are outside the model: each round says how long
 * its session lasted, how it ended, and where cancellation was first
 * observed, if anywhere.  The loop is followed for as many rounds as are
 * supplied.
 */
module AgentBackoff {
  import opened Common
  import AgentSession

  const MinBackoff: Time := 2000
  const MaxBackoff: Time := 60000
  /** A session that lived this long resets the backoff. */
  const StableAfter: Time := 30000

  /** The first of connectLoop's three cancellation checks that fires in a round. */
  datatype CancelAt = NotCancelled | BeforeDial | AfterSession | DuringSleep

  datatype Round = Round(duration: Time, ended: AgentSession.SessionEnd, cancel: CancelAt)

  datatype Stop = Cancelled(at: CancelAt) | Exhausted

  /** Sessions started, the delay of every sleep begun, and why the loop stopped. */
  datatype Trace = Trace(dials: nat, sleeps: seq<Time>, stop: Stop)

  function Min(a: int, b: int): int {
    if a <= b then a else b
  }

  /** The backoff after a completed sleep: doubled, but never beyond the cap; at the cap it stays. */
  function Grow(backoff: Time): (b: Time)
    ensures backoff < MaxBackoff ==> b == Min(2 * backoff, MaxBackoff)
    ensures backoff >= MaxBackoff ==> b == backoff
    ensures backoff <= b
    ensures backoff <= MaxBackoff ==> b <= MaxBackoff
  {
    if backoff < MaxBackoff then
      if backoff * 2 > MaxBackoff then MaxBackoff else backoff * 2
    else backoff
  }

  /** The delay slept after a session, given the backoff carried into it. */
  function Delay(r: Round, backoff: Time): Time {
    if r.duration >= StableAfter then MinBackoff else backoff
  }

  /** Reference definition of connectLoop, one round at a time. */
  function Reconnect(rounds: seq<Round>, backoff: Time): Trace
  {
    if rounds == [] then Trace(0, [], Exhausted)
    else if rounds[0].cancel == BeforeDial then Trace(0, [], Cancelled(BeforeDial))
    else if rounds[0].cancel == AfterSession then Trace(1, [], Cancelled(AfterSession))
    else if rounds[0].cancel == DuringSleep then
      Trace(1, [Delay(rounds[0], backoff)], Cancelled(DuringSleep))
    else
      var rest := Reconnect(rounds[1..], Grow(Delay(rounds[0], backoff)));
      Trace(1 + rest.dials, [Delay(rounds[0], backoff)] + rest.sleeps, rest.stop)
  }

  /** `t` preceded by `dials` sessions and the given sleeps. */
  function After(dials: nat, sleeps: seq<Time>, t: Trace): Trace {
    Trace(dials + t.dials, sleeps + t.sleeps, t.stop)
  }

  lemma AfterAfter(dials: nat, sleeps: seq<Time>, more: nat, slept: seq<Time>, t: Trace)
    ensures After(dials, sleeps, After(more, slept, t)) == After(dials + more, sleeps + slept, t)
  {
  }

  /** One uncancelled round: a session, a sleep of Delay, then the rest with a grown backoff. */
  lemma RoundUnfolds(rounds: seq<Round>, backoff: Time)
    requires rounds != [] && rounds[0].cancel == NotCancelled
    ensures Reconnect(rounds, backoff)
         == After(1, [Delay(rounds[0], backoff)], Reconnect(rounds[1..], Grow(Delay(rounds[0], backoff))))
  {
  }

  /** A round in which cancellation is observed ends the loop. */
  lemma CancelledRound(rounds: seq<Round>, backoff: Time)
    requires rounds != [] && rounds[0].cancel != NotCancelled
    ensures rounds[0].cancel == BeforeDial ==> Reconnect(rounds, backoff) == Trace(0, [], Cancelled(BeforeDial))
    ensures rounds[0].cancel == AfterSession ==> Reconnect(rounds, backoff) == Trace(1, [], Cancelled(AfterSession))
    ensures rounds[0].cancel == DuringSleep ==>
      Reconnect(rounds, backoff) == Trace(1, [Delay(rounds[0], backoff)], Cancelled(DuringSleep))
  {
  }

  /** connectLoop over the supplied rounds. */
  method ConnectLoop(rounds: seq<Round>) returns (t: Trace)
    ensures t == Reconnect(rounds, MinBackoff)
  {
    ghost var goal := Reconnect(rounds, MinBackoff);
    var backoff: Time := MinBackoff;
    var dials: nat, sleeps: seq<Time> := 0, [];
    var i := 0;
    while i < |rounds|
      invariant 0 <= i <= |rounds|
      invariant goal == After(dials, sleeps, Reconnect(rounds[i..], backoff))
    {
      ghost var here, prev := rounds[i..], backoff;
      assert here[0] == rounds[i];
      var r := rounds[i];
      if r.cancel != NotCancelled {
        CancelledRound(here, prev);
      }
      if r.cancel == BeforeDial {
        assert goal == Trace(dials, sleeps, Cancelled(BeforeDial)) by { assert sleeps + [] == sleeps; }
        return Trace(dials, sleeps, Cancelled(BeforeDial));
      }
      // runSession runs here, for r.duration
      dials := dials + 1;
      if r.cancel == AfterSession {
        assert goal == Trace(dials, sleeps, Cancelled(AfterSession)) by { assert sleeps + [] == sleeps; }
        return Trace(dials, sleeps, Cancelled(AfterSession));
      }
      if r.duration >= StableAfter {
        backoff := MinBackoff;
      }
      assert backoff == Delay(r, prev);
      sleeps := sleeps + [backoff];
      if r.cancel == DuringSleep {
        assert goal == Trace(dials, sleeps, Cancelled(DuringSleep));
        return Trace(dials, sleeps, Cancelled(DuringSleep));
      }
      ghost var slept := backoff;
      if backoff < MaxBackoff {
        backoff := backoff * 2;
        if backoff > MaxBackoff {
          backoff := MaxBackoff;
        }
      }
      assert backoff == Grow(slept);
      assert goal == After(dials, sleeps, Reconnect(rounds[i + 1..], backoff)) by {
        assert here[1..] == rounds[i + 1..];
        RoundUnfolds(here, prev);
        AfterAfter(dials - 1, sleeps[..|sleeps| - 1], 1, [slept], Reconnect(rounds[i + 1..], backoff));
        assert sleeps[..|sleeps| - 1] + [slept] == sleeps;
      }
      i := i + 1;
    }
    assert rounds[i..] == [];
    return Trace(dials, sleeps, Exhausted);
  }

  /** Every delay slept lies within [MinBackoff, MaxBackoff]; there is at most one sleep per session. */
  lemma {:induction false} SleepsBounded(rounds: seq<Round>, backoff: Time)
    requires MinBackoff <= backoff <= MaxBackoff
    ensures var t := Reconnect(rounds, backoff);
      |t.sleeps| <= t.dials <= |rounds| &&
      forall k :: 0 <= k < |t.sleeps| ==> MinBackoff <= t.sleeps[k] <= MaxBackoff
  {
    if rounds != [] && rounds[0].cancel == NotCancelled {
      SleepsBounded(rounds[1..], Grow(Delay(rounds[0], backoff)));
    }
  }

  /** After a session of at least StableAfter, the next sleep is the minimum, whatever came before. */
  lemma {:induction false} StableSessionResets(rounds: seq<Round>, backoff: Time, k: nat)
    requires k < |Reconnect(rounds, backoff).sleeps|
    requires k < |rounds| && rounds[k].duration >= StableAfter
    ensures Reconnect(rounds, backoff).sleeps[k] == MinBackoff
  {
    if k > 0 {
      StableSessionResets(rounds[1..], Grow(Delay(rounds[0], backoff)), k - 1);
    }
  }

  /**
   * Between consecutive sleeps the backoff grows by Grow, unless the session
   * in between was stable, which resets it.
   */
  lemma {:induction false} ConsecutiveSleeps(rounds: seq<Round>, backoff: Time, k: nat)
    requires k + 1 < |Reconnect(rounds, backoff).sleeps|
    ensures k + 1 < |rounds|
    ensures var s := Reconnect(rounds, backoff).sleeps;
      s[k + 1] == if rounds[k + 1].duration >= StableAfter then MinBackoff else Grow(s[k])
  {
    var next := Grow(Delay(rounds[0], backoff));
    if k == 0 {
      assert Reconnect(rounds[1..], next).sleeps != [];
      assert rounds[1..] != [];
    } else {
      ConsecutiveSleeps(rounds[1..], next, k - 1);
    }
  }

  function Pow2(n: nat): nat {
    if n == 0 then 1 else 2 * Pow2(n - 1)
  }

  /** k completed sleeps without a reset take the minimum to min(MaxBackoff, MinBackoff * 2^k). */
  function Schedule(k: nat): Time {
    if k == 0 then MinBackoff else Grow(Schedule(k - 1))
  }

  lemma {:induction false} ScheduleClosedForm(k: nat)
    ensures Schedule(k) == Min(MaxBackoff, MinBackoff * Pow2(k))
  {
    if k > 0 {
      ScheduleClosedForm(k - 1);
      assert MinBackoff * Pow2(k) == 2 * (MinBackoff * Pow2(k - 1));
    }
  }

  /** The schedule starts 2 s, 4 s, 8 s, 16 s, 32 s and then stays at 60 s. */
  lemma {:induction false} ScheduleValues(k: nat)
    ensures Schedule(0) == 2000 && Schedule(1) == 4000 && Schedule(2) == 8000
    ensures Schedule(3) == 16000 && Schedule(4) == 32000
    ensures k >= 5 ==> Schedule(k) == 60000
  {
    if k > 5 {
      ScheduleValues(k - 1);
    }
  }

  /** Consecutive short, uncancelled sessions sleep along the schedule. */
  lemma {:induction false} ShortSessionsFollowSchedule(rounds: seq<Round>, j: nat)
    requires forall i :: 0 <= i < |rounds| ==> rounds[i].duration < StableAfter && rounds[i].cancel == NotCancelled
    ensures var t := Reconnect(rounds, Schedule(j));
      |t.sleeps| == |rounds| && forall k :: 0 <= k < |rounds| ==> t.sleeps[k] == Schedule(j + k)
  {
    if rounds != [] {
      ShortSessionsFollowSchedule(rounds[1..], j + 1);
      var t := Reconnect(rounds, Schedule(j));
      forall k | 0 <= k < |rounds| ensures t.sleeps[k] == Schedule(j + k) {
        if k > 0 {
          assert t.sleeps[k] == Reconnect(rounds[1..], Schedule(j + 1)).sleeps[k - 1];
        }
      }
    }
  }

  /** Without cancellation the loop starts every session and sleeps after each: no error stops it. */
  lemma {:induction false} OnlyCancellationStops(rounds: seq<Round>, backoff: Time)
    requires forall i :: 0 <= i < |rounds| ==> rounds[i].cancel == NotCancelled
    ensures var t := Reconnect(rounds, backoff);
      t.dials == |rounds| && |t.sleeps| == |rounds| && t.stop == Exhausted
  {
    if rounds != [] {
      OnlyCancellationStops(rounds[1..], Grow(Delay(rounds[0], backoff)));
    }
  }

  /**
   * Cancellation first observed in round j stops the loop there: no session
   * after it is started, and a sleep begins only if cancellation arrived during it.
   */
  lemma {:induction false} CancellationStops(rounds: seq<Round>, backoff: Time, j: nat)
    requires j < |rounds| && rounds[j].cancel != NotCancelled
    requires forall i :: 0 <= i < j ==> rounds[i].cancel == NotCancelled
    ensures var t := Reconnect(rounds, backoff);
      t.stop == Cancelled(rounds[j].cancel) &&
      t.dials == (if rounds[j].cancel == BeforeDial then j else j + 1) &&
      |t.sleeps| == (if rounds[j].cancel == DuringSleep then j + 1 else j)
  {
    if j > 0 {
      CancellationStops(rounds[1..], Grow(Delay(rounds[0], backoff)), j - 1);
    }
  }

  /**
   * How a session ended (bad URL, dial failure, write failure) does not
   * matter: only durations and cancellation shape the trace.
   */
  lemma {:induction false} EndingIsIrrelevant(rounds: seq<Round>, others: seq<Round>, backoff: Time)
    requires |rounds| == |others|
    requires forall i :: 0 <= i < |rounds| ==>
      rounds[i].duration == others[i].duration && rounds[i].cancel == others[i].cancel
    ensures Reconnect(rounds, backoff) == Reconnect(others, backoff)
  {
    if rounds != [] {
      EndingIsIrrelevant(rounds[1..], others[1..], Grow(Delay(rounds[0], backoff)));
    }
  }
}

=== FILE: agent_config.dfy ===
/**
 * Agent configuration discovery (agent.go, readToken and readServerURL).
 *
 * A file is modelled as the sequence of its lines, or None when it cannot be
 * opened; the environment is a map.  Both readers scan the lines in order and
 * return the remainder of the first line that starts with a fixed prefix.
 */
module AgentConfig {
  import opened Common

  const TokenKey: string := "AMPLET_TOKEN="
  const ServerKey: string := "AMPLET_SERVER_URL="
  const ServerEnv: string := "AMPLET_SERVER_URL"

  predicate HasPrefix(line: string, prefix: string) {
    prefix <= line
  }

  /** Reference definition: the suffix of the first line carrying `prefix`. */
  function Lookup(lines: seq<string>, prefix: string): Option<string>
  {
    if lines == [] then None
    else if HasPrefix(lines[0], prefix) then Some(lines[0][|prefix|..])
    else Lookup(lines[1..], prefix)
  }

  /** Line `i` is the first one that starts with `prefix`. */
  ghost predicate FirstWith(lines: seq<string>, prefix: string, i: int) {
    0 <= i < |lines| && HasPrefix(lines[i], prefix) &&
    forall j :: 0 <= j < i ==> !HasPrefix(lines[j], prefix)
  }

  /** Lookup finds exactly the first matching line, and only fails when no line matches. */
  lemma {:induction false} LookupIsFirstMatch(lines: seq<string>, prefix: string)
    ensures Lookup(lines, prefix).None? <==> forall j :: 0 <= j < |lines| ==> !HasPrefix(lines[j], prefix)
    ensures forall i :: FirstWith(lines, prefix, i) ==>
              Lookup(lines, prefix) == Some(lines[i][|prefix|..])
  {
    if lines != [] {
      LookupIsFirstMatch(lines[1..], prefix);
      forall i | FirstWith(lines, prefix, i)
        ensures Lookup(lines, prefix) == Some(lines[i][|prefix|..])
      {
        if i > 0 {
          assert FirstWith(lines[1..], prefix, i - 1) by {
            forall j | 0 <= j < i - 1 ensures !HasPrefix(lines[1..][j], prefix) {
              assert lines[1..][j] == lines[j + 1];
            }
          }
        }
      }
      if !HasPrefix(lines[0], prefix) {
        if forall j :: 0 <= j < |lines[1..]| ==> !HasPrefix(lines[1..][j], prefix) {
          forall j | 0 <= j < |lines| ensures !HasPrefix(lines[j], prefix) {
            if j > 0 { assert lines[j] == lines[1..][j - 1]; }
          }
        }
      }
    }
  }

  /** The bufio scan: walk the lines in order, return at the first match, "" otherwise. */
  method ScanFor(lines: seq<string>, prefix: string) returns (v: string)
    ensures Lookup(lines, prefix).Some? ==> v == Lookup(lines, prefix).value
    ensures Lookup(lines, prefix).None? ==> v == ""
  {
    var i := 0;
    while i < |lines|
      invariant 0 <= i <= |lines|
      invariant Lookup(lines[i..], prefix) == Lookup(lines, prefix)
    {
      assert lines[i..][1..] == lines[i + 1..];
      if HasPrefix(lines[i], prefix) {
        return lines[i][|prefix|..];
      }
      i := i + 1;
    }
    return "";
  }

  /**
   * readToken: the value after "AMPLET_TOKEN=" on the first such line of the
   * token file; "" when the file cannot be opened or holds no such line.
   */
  method ReadToken(tokenFile: Option<seq<string>>) returns (token: string)
    ensures tokenFile.None? ==> token == ""
    ensures tokenFile.Some? ==>
      token == (match Lookup(tokenFile.value, TokenKey) case Some(s) => s case None => "")
  {
    if tokenFile.None? {
      return "";
    }
    token := ScanFor(tokenFile.value, TokenKey);
  }

  /**
   * readServerURL: a non-empty AMPLET_SERVER_URL variable wins; otherwise the
   * first "AMPLET_SERVER_URL=" line of the config file; otherwise "".
   */
  method ReadServerURL(env: Env, configFile: Option<seq<string>>) returns (url: string)
    ensures Getenv(env, ServerEnv) != "" ==> url == env[ServerEnv]
    ensures Getenv(env, ServerEnv) == "" && configFile.None? ==> url == ""
    ensures Getenv(env, ServerEnv) == "" && configFile.Some? ==>
      url == (match Lookup(configFile.value, ServerKey) case Some(s) => s case None => "")
  {
    var v := Getenv(env, ServerEnv);
    if v != "" {
      return v;
    }
    if configFile.Some? {
      url := ScanFor(configFile.value, ServerKey);
      return;
    }
    return "";
  }

  /** A token line with nothing after the '=' yields the empty token, not the next line's. */
  lemma EmptyTokenLineWins(rest: seq<string>)
    ensures Lookup([TokenKey] + rest, TokenKey) == Some("")
  {
    var lines := [TokenKey] + rest;
    assert lines[0] == TokenKey && HasPrefix(lines[0], TokenKey);
    assert TokenKey[|TokenKey|..] == "";
  }
}

=== FILE: agent_session.dfy ===
/**
 * The agent's session driver (agent.go, runSession): rewrite the server URL
 * into the collector's WebSocket endpoint, dial it, then send one stats
 * message per tick until a write fails or cancellation is observed.
 *
 * url.Parse, the dialer and the sampler are outside the model: the parsed URL
 * (None when parsing fails), whether the dial succeeds, and what happens at
 * each tick are inputs.
 */
module AgentSession {
  import opened Common

  const AgentPath: string := "/ws/agent"
  const TokenParam: string := "token"
  /** Status code 1000, "normal closure" (section 7.4.1 of RFC 6455). */
  const CloseNormalClosure: nat := 1000
  const ShutdownReason: string := "agent shutting down"

  /** A parsed URL: the parts runSession reads or rewrites, the rest carried along. */
  datatype Url = Url(scheme: string, userinfo: string, host: string, path: string,
                     query: map<string, seq<string>>, fragment: string)

  /** The JSON document written at each tick. */
  datatype StatsMessage = StatsMessage(token: string, ts: Time, readings: Readings)

  datatype CloseFrame = CloseFrame(code: nat, reason: string)

  /** What the environment does at one turn of the select loop. */
  datatype TickEvent =
    | Cancel(closeWriteOk: bool)        // ctx.Done fires; the close frame write may fail
    | Tick(at: Time, sample: Option<Readings>, marshalOk: bool, writeOk: bool)

  /**
   * How runSession returned: BadURL, DialFailed and WriteFailed are its error
   * returns, ClosedByCancel its nil return; StillOpen: the supplied events ran out first.
   */
  datatype SessionEnd = BadURL | DialFailed | WriteFailed | ClosedByCancel | StillOpen

  datatype TickTrace = TickTrace(sent: seq<StatsMessage>, close: Option<CloseFrame>, end: SessionEnd)

  function WsScheme(scheme: string): string {
    if scheme == "https" then "wss" else if scheme == "http" then "ws" else scheme
  }

  /** The collector endpoint derived from the configured server URL. */
  function AgentURL(u: Url, token: string): (r: Url)
    ensures u.scheme == "https" ==> r.scheme == "wss"
    ensures u.scheme == "http" ==> r.scheme == "ws"
    ensures u.scheme != "https" && u.scheme != "http" ==> r.scheme == u.scheme
    ensures r.path == AgentPath
    ensures r.query.Keys == u.query.Keys + {TokenParam} && r.query[TokenParam] == [token]
    ensures forall k :: k in u.query && k != TokenParam ==> r.query[k] == u.query[k]
    ensures r.userinfo == u.userinfo && r.host == u.host && r.fragment == u.fragment
  {
    u.(scheme := WsScheme(u.scheme), path := AgentPath, query := u.query[TokenParam := [token]])
  }

  /** Rewriting an already rewritten URL (with the same token) changes nothing. */
  lemma AgentURLIdempotent(u: Url, token: string)
    ensures AgentURL(AgentURL(u, token), token) == AgentURL(u, token)
  {
  }

  /** The endpoint is TLS-protected exactly when the configured URL was. */
  lemma AgentURLKeepsTls(u: Url, token: string)
    ensures AgentURL(u, token).scheme == "wss" <==> u.scheme == "https" || u.scheme == "wss"
    ensures AgentURL(u, token).scheme == "ws" <==> u.scheme == "http" || u.scheme == "ws"
  {
  }

  /** Reference definition of the tick loop, one event at a time. */
  function Ticks(events: seq<TickEvent>, token: string): TickTrace
  {
    if events == [] then TickTrace([], None, StillOpen)
    else match events[0]
      case Cancel(_) => TickTrace([], Some(CloseFrame(CloseNormalClosure, ShutdownReason)), ClosedByCancel)
      case Tick(at, sample, marshalOk, writeOk) =>
        if sample.None? || !marshalOk then Ticks(events[1..], token)
        else if !writeOk then TickTrace([], None, WriteFailed)
        else
          var rest := Ticks(events[1..], token);
          rest.(sent := [StatsMessage(token, at, sample.value)] + rest.sent)
  }

  /**
   * Independent view: the messages the ticks before the first cancellation
   * would produce, ignoring write outcomes.
   */
  function Deliverable(events: seq<TickEvent>, token: string): seq<StatsMessage>
  {
    if events == [] || events[0].Cancel? then []
    else if events[0].sample.None? || !events[0].marshalOk then Deliverable(events[1..], token)
    else [StatsMessage(token, events[0].at, events[0].sample.value)] + Deliverable(events[1..], token)
  }

  /**
   * Every message written carries the session's token, what is written is a
   * prefix of what the ticks produced (all of it unless a write failed), and
   * a close frame with status 1000 is sent exactly when the loop ends by
   * cancellation.
   */
  lemma {:induction false} TicksSendDeliverable(events: seq<TickEvent>, token: string)
    ensures var t := Ticks(events, token);
      (forall m :: m in t.sent ==> m.token == token) &&
      t.sent <= Deliverable(events, token) &&
      (t.end != WriteFailed ==> t.sent == Deliverable(events, token)) &&
      (t.end == ClosedByCancel <==> t.close == Some(CloseFrame(CloseNormalClosure, ShutdownReason))) &&
      (t.end != ClosedByCancel ==> t.close == None) &&
      t.end in {WriteFailed, ClosedByCancel, StillOpen}
  {
    if events != [] && events[0].Tick? {
      TicksSendDeliverable(events[1..], token);
    }
  }

  /**
   * A failed sample or a failed marshal only skips its tick: with every write
   * succeeding and no cancellation, the session is still open after all ticks.
   */
  lemma {:induction false} SkippedTicksKeepSession(events: seq<TickEvent>, token: string)
    requires forall i :: 0 <= i < |events| ==>
      events[i].Tick? && (events[i].sample.Some? && events[i].marshalOk ==> events[i].writeOk)
    ensures Ticks(events, token).end == StillOpen
    ensures Ticks(events, token).sent == Deliverable(events, token)
  {
    if events != [] {
      SkippedTicksKeepSession(events[1..], token);
    }
  }

  /** A write failure ends the session with an error; later ticks are never served. */
  lemma {:induction false} WriteFailureEnds(events: seq<TickEvent>, rest: seq<TickEvent>, token: string, at: Time, r: Readings)
    requires forall i :: 0 <= i < |events| ==>
      events[i].Tick? && (events[i].sample.Some? && events[i].marshalOk ==> events[i].writeOk)
    ensures Ticks(events + [Tick(at, Some(r), true, false)] + rest, token)
            == TickTrace(Deliverable(events, token), None, WriteFailed)
  {
    var all := events + [Tick(at, Some(r), true, false)] + rest;
    if events == [] {
      assert all[0] == Tick(at, Some(r), true, false);
    } else {
      assert all[0] == events[0];
      assert all[1..] == events[1..] + [Tick(at, Some(r), true, false)] + rest;
      WriteFailureEnds(events[1..], rest, token, at, r);
    }
  }

  /**
   * Cancellation ends the session without error: a status-1000 close frame is
   * attempted whether or not that write succeeds, every earlier snapshot was
   * sent, and later ticks are never served.
   */
  lemma {:induction false} CancellationClosesSession(events: seq<TickEvent>, rest: seq<TickEvent>, token: string, closeOk: bool)
    requires forall i :: 0 <= i < |events| ==>
      events[i].Tick? && (events[i].sample.Some? && events[i].marshalOk ==> events[i].writeOk)
    ensures Ticks(events + [Cancel(closeOk)] + rest, token)
            == TickTrace(Deliverable(events, token), Some(CloseFrame(CloseNormalClosure, ShutdownReason)), ClosedByCancel)
  {
    var all := events + [Cancel(closeOk)] + rest;
    if events == [] {
      assert all[0] == Cancel(closeOk);
    } else {
      assert all[0] == events[0];
      assert all[1..] == events[1..] + [Cancel(closeOk)] + rest;
      CancellationClosesSession(events[1..], rest, token, closeOk);
    }
  }

  /** runSession: URL rewrite, dial, then the tick loop. */
  method RunSession(parsed: Option<Url>, token: string, dialOk: bool, events: seq<TickEvent>)
    returns (dialed: Option<Url>, sent: seq<StatsMessage>, close: Option<CloseFrame>, end: SessionEnd)
    ensures parsed.None? ==> dialed == None && sent == [] && close == None && end == BadURL
    ensures parsed.Some? ==> dialed == Some(AgentURL(parsed.value, token))
    ensures parsed.Some? && !dialOk ==> sent == [] && close == None && end == DialFailed
    ensures parsed.Some? && dialOk ==> TickTrace(sent, close, end) == Ticks(events, token)
  {
    sent, close := [], None;
    if parsed.None? {
      return None, sent, close, BadURL;
    }
    var u := parsed.value;
    if u.scheme == "https" {
      u := u.(scheme := "wss");
    } else if u.scheme == "http" {
      u := u.(scheme := "ws");
    }
    u := u.(path := AgentPath);
    var q := u.query;
    q := q[TokenParam := [token]];
    u := u.(query := q);
    dialed := Some(u);
    if !dialOk {
      return dialed, sent, close, DialFailed;
    }
    var i := 0;
    while i < |events|
      invariant 0 <= i <= |events|
      invariant Ticks(events, token) == Ticks(events[i..], token).(sent := sent + Ticks(events[i..], token).sent)
    {
      assert events[i..][1..] == events[i + 1..];
      match events[i] {
        case Cancel(_) =>
          // the result of writing the close frame is ignored
          close := Some(CloseFrame(CloseNormalClosure, ShutdownReason));
          return dialed, sent, close, ClosedByCancel;
        case Tick(at, sample, marshalOk, writeOk) =>
          if sample.Some? && marshalOk {
            if !writeOk {
              return dialed, sent, close, WriteFailed;
            }
            sent := sent + [StatsMessage(token, at, sample.value)];
          }
      }
      i := i + 1;
    }
    return dialed, sent, close, StillOpen;
  }
}

=== FILE: common.dfy ===
/** Small shared vocabulary used by both the agent and the collector model. */
module Common {

  datatype Option<+T> = None | Some(value: T)

  /** Process environment: a missing variable and an empty one are both read as "". */
  type Env = map<string, string>

  /** os.Getenv: the value of `key`, or "" when it is not set. */
  function Getenv(env: Env, key: string): (v: string)
    ensures key !in env ==> v == ""
    ensures key in env ==> v == env[key]
  {
    if key in env then env[key] else ""
  }

  /** Clock readings and durations, in milliseconds. */
  type Time = nat

  /** The integer part of one hardware snapshot (the JSON "mem", "disk" and "gpus" objects). */
  datatype Gpu = Gpu(index: int, memUsedMB: nat, memTotalMB: nat)
  datatype Readings = Readings(memTotalBytes: nat, memUsedBytes: nat,
                               diskTotalBytes: nat, diskUsedBytes: nat,
                               gpus: seq<Gpu>)
}

=== FILE: server_db.dfy ===
/**
 * The collector's storage decisions (cmd/server/db.go).
 *
 * The fleet registry is a map from token to record, the time-series store an
 * append-only sequence of rows.  SQL, pgx and encoding/json are outside the
 * model: whether a database call fails is an input, and JSON documents are
 * abstract values.
 */
module ServerDb {
  import opened Common

  /** envOr: the variable's value when it is set to something non-empty, else the default. */
  function EnvOr(env: Env, key: string, def: string): (v: string)
    ensures key in env && env[key] != "" ==> v == env[key]
    ensures (key !in env || env[key] == "") ==> v == def
    ensures v == "" ==> def == ""
  {
    var x := Getenv(env, key);
    if x != "" then x else def
  }

  // ---- JSON ----

  datatype Json =
    | JNull
    | JBool(b: bool)
    | JNumber(n: int)
    | JString(s: string)
    | JArray(items: seq<Json>)
    | JObject(fields: map<string, Json>)

  type JsonObject = map<string, Json>

  /** Keys that classify a message and are never stored as configuration. */
  const TypeKey: string := "type"
  const TokenKey: string := "token"

  /** The two deletes saveHardwareConfig applies to the decoded object. */
  function StripReserved(m: JsonObject): (r: JsonObject)
    ensures TypeKey !in r && TokenKey !in r
    ensures forall k :: k in m && k != TypeKey && k != TokenKey ==> k in r && r[k] == m[k]
    ensures forall k :: k in r ==> k in m
  {
    m - {TypeKey} - {TokenKey}
  }

  /** Stripping an already stripped object changes nothing. */
  lemma StripIdempotent(m: JsonObject)
    ensures StripReserved(StripReserved(m)) == StripReserved(m)
  {
  }

  /** An object without reserved keys is stored exactly as it is. */
  lemma StripKeepsCleanObject(m: JsonObject)
    requires TypeKey !in m && TokenKey !in m
    ensures StripReserved(m) == m
  {
  }

  // ---- Fleet registry ----

  const Expired: string := "EXPIRED"
  const Connected: string := "CONNECTED"

  /** One FleetEnquiry row, found by its token. */
  datatype Record = Record(enquiryId: string, status: string, expiresAt: Time,
                           swInstalled: bool, config: Option<JsonObject>)

  type Records = map<string, Record>

  /** enquiryId identifies a row: two tokens never share one. */
  ghost predicate UniqueEnquiries(records: Records) {
    forall t, u :: t in records && u in records && t != u ==> records[t].enquiryId != records[u].enquiryId
  }

  /** UPDATE ... SET status = 'EXPIRED' WHERE "enquiryId" = id. */
  function MarkExpired(records: Records, id: string): (r: Records)
    ensures r.Keys == records.Keys
    ensures forall t :: t in records && records[t].enquiryId == id ==> r[t] == records[t].(status := Expired)
    ensures forall t :: t in records && records[t].enquiryId != id ==> r[t] == records[t]
  {
    map t | t in records :: if records[t].enquiryId == id then records[t].(status := Expired) else records[t]
  }

  /** UPDATE ... SET status = 'CONNECTED', "isSWinstalled" = true WHERE "enquiryId" = id. */
  function MarkConnected(records: Records, id: string): (r: Records)
    ensures r.Keys == records.Keys
    ensures forall t :: t in records && records[t].enquiryId == id ==>
      r[t] == records[t].(status := Connected, swInstalled := true)
    ensures forall t :: t in records && records[t].enquiryId != id ==> r[t] == records[t]
  {
    map t | t in records :: if records[t].enquiryId == id then records[t].(status := Connected, swInstalled := true) else records[t]
  }

  datatype AuthError = InvalidToken | LookupFailed | TokenExpired | UpdateFailed {
    /** The text the collector sends back with its 401 response. */
    function Text(): string {
      match this
      case InvalidToken => "invalid token"
      case LookupFailed => "db lookup: query failed"
      case TokenExpired => "token expired"
      case UpdateFailed => "update failed"
    }
  }

  /** Which database statements fail during one validateAndRegister call. */
  datatype Faults = Faults(lookupFails: bool, updateFails: bool)

  datatype Registration = Registration(err: Option<AuthError>, records: Records)

  /** Reference definition of validateAndRegister's decision tree and its writes. */
  function Register(records: Records, token: string, now: Time, f: Faults): Registration
  {
    if f.lookupFails then Registration(Some(LookupFailed), records)
    else if token !in records then Registration(Some(InvalidToken), records)
    else
      var rec := records[token];
      if rec.status == Expired then Registration(Some(TokenExpired), records)
      else if now > rec.expiresAt then
        // the update's own error is ignored
        Registration(Some(TokenExpired), if f.updateFails then records else MarkExpired(records, rec.enquiryId))
      else if f.updateFails then Registration(Some(UpdateFailed), records)
      else Registration(None, MarkConnected(records, rec.enquiryId))
  }

  /**
   * A token is admitted exactly when its record exists, is not EXPIRED and
   * has not passed its expiry (now == expiresAt is still valid), and the
   * database does not fail; the record is then CONNECTED with the software
   * marked installed.
   */
  lemma AdmitExactlyLive(records: Records, token: string, now: Time, f: Faults)
    ensures Register(records, token, now, f).err.None? <==>
      !f.lookupFails && !f.updateFails && token in records &&
      records[token].status != Expired && now <= records[token].expiresAt
    ensures Register(records, token, now, f).err.None? ==>
      var r := Register(records, token, now, f).records;
      r[token].status == Connected && r[token].swInstalled
  {
  }

  /** Registration only rewrites status and isSWinstalled of the matched enquiry's rows. */
  lemma RegisterFrame(records: Records, token: string, now: Time, f: Faults)
    ensures var r := Register(records, token, now, f).records;
      r.Keys == records.Keys &&
      forall t :: t in records ==>
        r[t].enquiryId == records[t].enquiryId && r[t].expiresAt == records[t].expiresAt &&
        r[t].config == records[t].config &&
        (token !in records || records[t].enquiryId != records[token].enquiryId ==> r[t] == records[t])
  {
  }

  /** A rejected request never marks anything CONNECTED. */
  lemma RejectionConnectsNothing(records: Records, token: string, now: Time, f: Faults)
    requires Register(records, token, now, f).err.Some?
    ensures var r := Register(records, token, now, f).records;
      forall t :: t in records ==> r[t] == records[t] || r[t] == records[t].(status := Expired)
  {
  }

  /** When enquiry ids are unique, an EXPIRED record is never turned back into anything else. */
  lemma ExpiredStaysExpired(records: Records, token: string, now: Time, f: Faults)
    requires UniqueEnquiries(records)
    ensures var r := Register(records, token, now, f).records;
      forall t :: t in records && records[t].status == Expired ==> r[t].status == Expired
  {
  }

  /**
   * A token past its expiry is marked EXPIRED by the first attempt; every
   * later attempt is rejected the same way and writes nothing.
   */
  lemma ExpiresOnce(records: Records, token: string, now: Time, later: Time, f: Faults, g: Faults)
    requires token in records && records[token].status != Expired && now > records[token].expiresAt
    requires !f.lookupFails && !f.updateFails && !g.lookupFails
    ensures var first := Register(records, token, now, f);
      first.err == Some(TokenExpired) && first.records[token].status == Expired &&
      Register(first.records, token, later, g) == Registration(Some(TokenExpired), first.records)
  {
  }

  /** saveHardwareConfig's write: UPDATE ... SET config WHERE token = token. */
  function ApplyConfig(records: Records, token: string, config: JsonObject): (r: Records)
    ensures r.Keys == records.Keys
    ensures token in records ==> r[token] == records[token].(config := Some(StripReserved(config)))
    ensures forall t :: t in records && t != token ==> r[t] == records[t]
  {
    if token in records then records[token := records[token].(config := Some(StripReserved(config)))]
    else records
  }

  datatype ConfigError = InvalidConfigJson | ConfigUpdateFailed

  /** A registry whose rows the collector reads and updates. */
  class Registry {
    var records: Records

    constructor (records: Records)
      ensures this.records == records
    {
      this.records := records;
    }

    /** validateAndRegister: decide on the token and record the outcome. */
    method ValidateAndRegister(token: string, now: Time, f: Faults) returns (err: Option<AuthError>)
      modifies this
      ensures Registration(err, records) == Register(old(records), token, now, f)
    {
      if f.lookupFails {
        return Some(LookupFailed);
      }
      if token !in records {
        return Some(InvalidToken);
      }
      var rec := records[token];
      if rec.status == Expired {
        return Some(TokenExpired);
      }
      if now > rec.expiresAt {
        if !f.updateFails {
          records := MarkExpired(records, rec.enquiryId);
        }
        return Some(TokenExpired);
      }
      if f.updateFails {
        return Some(UpdateFailed);
      }
      records := MarkConnected(records, rec.enquiryId);
      return None;
    }

    /**
     * saveHardwareConfig: `decoded` is the message decoded as a JSON object
     * (None when it is not one); `updateOk` says whether the UPDATE succeeds.
     */
    method SaveHardwareConfig(token: string, decoded: Option<JsonObject>, updateOk: bool)
      returns (err: Option<ConfigError>)
      modifies this
      ensures decoded.None? ==> err == Some(InvalidConfigJson) && records == old(records)
      ensures decoded.Some? && !updateOk ==> err == Some(ConfigUpdateFailed) && records == old(records)
      ensures decoded.Some? && updateOk ==> err == None && records == ApplyConfig(old(records), token, decoded.value)
    {
      if decoded.None? {
        return Some(InvalidConfigJson);
      }
      var m := decoded.value;
      m := m - {TypeKey};
      m := m - {TokenKey};
      if !updateOk {
        return Some(ConfigUpdateFailed);
      }
      if token in records {
        records := records[token := records[token].(config := Some(m))];
      }
      return None;
    }
  }

  // ---- Time-series store ----

  /** Go's zero time.Time, as a reading of the model clock. */
  const ZeroTime: Time := 0

  /** A decoded stats payload (its float readings are not modelled). */
  datatype StatsRow = StatsRow(token: string, ts: Time, readings: Readings)

  /** One node_stats row. */
  datatype Row = Row(time: Time, token: string, readings: Readings)

  /** The row insertStats writes for `row` at clock reading `now`. */
  function Stamp(row: StatsRow, now: Time): (r: Row)
    ensures row.ts != ZeroTime ==> r.time == row.ts
    ensures row.ts == ZeroTime ==> r.time == now
    ensures now != ZeroTime ==> r.time != ZeroTime
    ensures r.token == row.token && r.readings == row.readings
  {
    Row(if row.ts == ZeroTime then now else row.ts, row.token, row.readings)
  }

  class TimeSeries {
    var rows: seq<Row>

    constructor ()
      ensures rows == []
    {
      rows := [];
    }

    /** insertStats: append the stamped row unless the INSERT fails. */
    method InsertStats(row: StatsRow, now: Time, insertOk: bool) returns (ok: bool)
      modifies this
      ensures ok == insertOk
      ensures rows == if insertOk then old(rows) + [Stamp(row, now)] else old(rows)
    {
      var ts := row.ts;
      if ts == ZeroTime {
        ts := now;
      }
      if !insertOk {
        return false;
      }
      rows := rows + [Row(ts, row.token, row.readings)];
      return true;
    }
  }
}

=== FILE: server_ws.dfy ===
/**
 * The collector's per-connection handler (cmd/server/ws.go, the function
 * makeWSHandler returns): a token gate before the upgrade, then a read loop
 * that keeps the read deadline fresh and routes every message by the "type"
 * field of its envelope.
 *
 * The transport is outside the model: what the connection delivers is a
 * sequence of inbound events, each stamped with its arrival time, and the
 * deadline check the transport performs is modelled explicitly.  The
 * background ping task is not modelled; its only visible effect is whether
 * pongs arrive.
 */
module ServerWs {
  import opened Common
  import opened ServerDb

  /** Read deadline distance, set at upgrade, on every pong and after every read. */
  const ReadWindow: Time := 30000
  /** conn.SetReadLimit: larger messages fail the read. */
  const ReadLimit: nat := 65536
  const StatusUnauthorized: nat := 401
  const ConfigType: string := "config"

  /**
   * One inbound message as the three decoders see it: the envelope's "type"
   * (None when the envelope does not decode, "" when the key is absent), the
   * message as a JSON object, and the message as a stats payload.
   */
  datatype Message = Message(envelope: Option<string>, asObject: Option<JsonObject>, stats: Option<StatsRow>)

  /** What a call to ReadMessage observes. */
  datatype Inbound =
    | Data(at: Time, size: nat, msg: Message, writeOk: bool)   // writeOk: the registry/store call succeeds
    | Pong(at: Time)                                            // answers a ping (section 5.5.3 of RFC 6455)
    | PeerClose(at: Time)
    | Broken                                                    // any other transport failure

  datatype Route = Drop | ToConfig | ToStats

  /** The envelope switch: only the exact type "config" is configuration. */
  function RouteOf(envelope: Option<string>): (r: Route)
    ensures r == Drop <==> envelope.None?
    ensures r == ToConfig <==> envelope == Some(ConfigType)
    ensures r == ToStats <==> envelope.Some? && envelope.value != ConfigType
  {
    match envelope
    case None => Drop
    case Some(t) => if t == ConfigType then ToConfig else ToStats
  }

  // ---- the read loop ----

  datatype End = ReadTimeout | TooLarge | ClosedByPeer | ReadFailed | InputEnded

  /** How many inbound events were handled, and what ended the loop. */
  datatype Served = Served(handled: nat, end: End)

  /**
   * What ReadMessage makes of event `f` under the current read deadline: the
   * error that ends the loop, or None when the event is delivered (a pong to
   * the pong handler, a message to the caller).
   */
  function ReadError(f: Inbound, deadline: Time): (e: Option<End>)
    ensures e.None? <==> (f.Pong? || (f.Data? && f.size <= ReadLimit)) && f.at <= deadline
    ensures e == Some(ReadTimeout) <==> !f.Broken? && f.at > deadline
    ensures e == Some(TooLarge) <==> f.Data? && f.at <= deadline && f.size > ReadLimit
    ensures e == Some(ReadFailed) <==> f.Broken?
  {
    match f
    case Broken => Some(ReadFailed)
    case PeerClose(at) => Some(if at > deadline then ReadTimeout else ClosedByPeer)
    case Pong(at) => if at > deadline then Some(ReadTimeout) else None
    case Data(at, size, _, _) =>
      if at > deadline then Some(ReadTimeout)
      else if size > ReadLimit then Some(TooLarge)
      else None
  }

  /**
   * Reference definition of the loop's control: it looks at timing and size
   * only, never at content; every delivered event moves the deadline to
   * ReadWindow after its arrival.
   */
  function Serve(frames: seq<Inbound>, deadline: Time): Served
  {
    if frames == [] then Served(0, InputEnded)
    else match ReadError(frames[0], deadline)
      case Some(e) => Served(0, e)
      case None =>
        var rest := Serve(frames[1..], frames[0].at + ReadWindow);
        rest.(handled := rest.handled + 1)
  }

  lemma {:induction false} ServeWithin(frames: seq<Inbound>, deadline: Time)
    ensures Serve(frames, deadline).handled <= |frames|
    ensures Serve(frames, deadline).end == InputEnded ==> Serve(frames, deadline).handled == |frames|
  {
    if frames != [] && ReadError(frames[0], deadline).None? {
      ServeWithin(frames[1..], frames[0].at + ReadWindow);
    }
  }

  /** The time of the activity that sets the deadline for event i. */
  function Activity(frames: seq<Inbound>, i: nat, start: Time): Time
    requires i <= |frames|
  {
    if i == 0 then start
    else match frames[i - 1]
      case Data(at, _, _, _) => at
      case Pong(at) => at
      case _ => start
  }

  /**
   * Keepalive: a connection whose messages and pongs each arrive within
   * ReadWindow of the previous activity, and whose messages fit the read
   * limit, is kept open for all of them.
   */
  lemma {:induction false} TimelyTrafficKeepsOpen(frames: seq<Inbound>, start: Time)
    requires forall i :: 0 <= i < |frames| ==>
      (frames[i].Data? && frames[i].size <= ReadLimit) || frames[i].Pong?
    requires forall i :: 0 <= i < |frames| ==> frames[i].at <= Activity(frames, i, start) + ReadWindow
    ensures Serve(frames, start + ReadWindow) == Served(|frames|, InputEnded)
  {
    if frames != [] {
      var rest := frames[1..];
      forall i | 0 <= i < |rest| ensures rest[i].at <= Activity(rest, i, frames[0].at) + ReadWindow {
        assert rest[i] == frames[i + 1];
        assert Activity(frames, i + 1, start) == Activity(rest, i, frames[0].at);
      }
      TimelyTrafficKeepsOpen(rest, frames[0].at);
    }
  }

  /** Conversely, the first event arriving later than ReadWindow after the previous activity ends the loop by timeout. */
  lemma {:induction false} SilenceTimesOut(frames: seq<Inbound>, start: Time, j: nat)
    requires j < |frames| && !frames[j].Broken?
    requires forall i :: 0 <= i < j ==> (frames[i].Data? && frames[i].size <= ReadLimit) || frames[i].Pong?
    requires forall i :: 0 <= i < j ==> frames[i].at <= Activity(frames, i, start) + ReadWindow
    requires frames[j].at > Activity(frames, j, start) + ReadWindow
    ensures Serve(frames, start + ReadWindow) == Served(j, ReadTimeout)
  {
    if j > 0 {
      var rest := frames[1..];
      forall i | 0 <= i <= j - 1 ensures Activity(frames, i + 1, start) == Activity(rest, i, frames[0].at) {
      }
      SilenceTimesOut(rest, frames[0].at, j - 1);
    }
  }

  /** The event is a stats message that decodes and whose insert succeeds. */
  predicate StoresRow(f: Inbound) {
    f.Data? && RouteOf(f.msg.envelope) == ToStats && f.msg.stats.Some? && f.writeOk
  }

  /** The row stored for an inbound event, if any. */
  function RowOf(f: Inbound, token: string): seq<Row> {
    if StoresRow(f)
    then [Stamp(f.msg.stats.value.(token := token), f.at)]
    else []
  }

  /** Rows appended by handling `frames` in arrival order. */
  function RowsOf(frames: seq<Inbound>, token: string): seq<Row>
  {
    if frames == [] then []
    else RowsOf(frames[..|frames| - 1], token) + RowOf(frames[|frames| - 1], token)
  }

  /** The registry after an inbound event is handled. */
  function ConfigOf(records: Records, token: string, f: Inbound): Records {
    if f.Data? && RouteOf(f.msg.envelope) == ToConfig && f.msg.asObject.Some? && f.writeOk
    then ApplyConfig(records, token, f.msg.asObject.value)
    else records
  }

  /** Registry after handling `frames` in arrival order. */
  function ConfigsOf(records: Records, token: string, frames: seq<Inbound>): Records
  {
    if frames == [] then records
    else ConfigOf(ConfigsOf(records, token, frames[..|frames| - 1]), token, frames[|frames| - 1])
  }

  /** Every stored stats row carries the authenticated token, whatever its payload claimed. */
  lemma {:induction false} RowsCarryToken(frames: seq<Inbound>, token: string)
    ensures forall r :: r in RowsOf(frames, token) ==> r.token == token
  {
    if frames != [] {
      RowsCarryToken(frames[..|frames| - 1], token);
    }
  }

  /** How many of `frames` store a row. */
  function StoredCount(frames: seq<Inbound>): nat {
    if frames == [] then 0
    else StoredCount(frames[..|frames| - 1]) + (if StoresRow(frames[|frames| - 1]) then 1 else 0)
  }

  /**
   * Stats messages that decode and are stored each yield one row, in arrival
   * order, however many undecodable, config or failed messages lie between
   * them: the row of the message at position i is the one after the rows of
   * the storing messages before it, and there are no other rows.
   */
  lemma {:induction false} StoredRowsInArrivalOrder(frames: seq<Inbound>, token: string)
    ensures |RowsOf(frames, token)| == StoredCount(frames)
    ensures forall i :: 0 <= i < |frames| && StoresRow(frames[i]) ==>
      StoredCount(frames[..i]) < |RowsOf(frames, token)| &&
      RowsOf(frames, token)[StoredCount(frames[..i])] == Stamp(frames[i].msg.stats.value.(token := token), frames[i].at)
  {
    if frames != [] {
      var front := frames[..|frames| - 1];
      StoredRowsInArrivalOrder(front, token);
      forall i | 0 <= i < |frames| && StoresRow(frames[i])
        ensures StoredCount(frames[..i]) < |RowsOf(frames, token)|
        ensures RowsOf(frames, token)[StoredCount(frames[..i])] == Stamp(frames[i].msg.stats.value.(token := token), frames[i].at)
      {
        if i < |frames| - 1 {
          assert frames[..i] == front[..i];
          assert front[i] == frames[i];
        } else {
          assert frames[..i] == front;
        }
      }
    }
  }

  /** When every message is a stored stats message, row i is the stamp of message i. */
  lemma {:induction false} EveryStoredStatsMessageIsARow(frames: seq<Inbound>, token: string)
    requires forall i :: 0 <= i < |frames| ==>
      frames[i].Data? && RouteOf(frames[i].msg.envelope) == ToStats && frames[i].msg.stats.Some? && frames[i].writeOk
    ensures |RowsOf(frames, token)| == |frames|
    ensures forall i :: 0 <= i < |frames| ==>
      RowsOf(frames, token)[i] == Stamp(frames[i].msg.stats.value.(token := token), frames[i].at)
  {
    if frames != [] {
      EveryStoredStatsMessageIsARow(frames[..|frames| - 1], token);
    }
  }

  /** Handling messages only changes the authenticated token's configuration, and never stores a reserved key. */
  lemma {:induction false} ConfigsStayClean(records: Records, token: string, frames: seq<Inbound>)
    requires forall t :: t in records && records[t].config.Some? ==>
      TypeKey !in records[t].config.value && TokenKey !in records[t].config.value
    ensures var r := ConfigsOf(records, token, frames);
      r.Keys == records.Keys &&
      (forall t :: t in records && t != token ==> r[t] == records[t]) &&
      (forall t :: t in r && r[t].config.Some? ==> TypeKey !in r[t].config.value && TokenKey !in r[t].config.value)
  {
    if frames != [] {
      ConfigsStayClean(records, token, frames[..|frames| - 1]);
    }
  }

  /** A first event that stores no row leaves the rows of the whole sequence those of the rest. */
  lemma {:induction false} RowlessHead(frames: seq<Inbound>, token: string)
    requires frames != [] && RowOf(frames[0], token) == []
    ensures RowsOf(frames, token) == RowsOf(frames[1..], token)
  {
    if |frames| == 1 {
      assert frames[1..] == [];
    } else {
      var front, rest := frames[..|frames| - 1], frames[1..];
      assert front[0] == frames[0];
      RowlessHead(front, token);
      assert rest[..|rest| - 1] == front[1..];
      assert rest[|rest| - 1] == frames[|frames| - 1];
    }
  }

  /**
   * A message whose envelope does not decode is dropped on its own: it still
   * refreshes the deadline, the session goes on, and the messages after it
   * are stored exactly as if it had never been sent.
   */
  lemma MalformedMessageIsDropped(frames: seq<Inbound>, token: string, deadline: Time)
    requires frames != [] && frames[0].Data? && frames[0].msg.envelope.None?
    requires frames[0].at <= deadline && frames[0].size <= ReadLimit
    ensures var rest := Serve(frames[1..], frames[0].at + ReadWindow);
      Serve(frames, deadline) == rest.(handled := rest.handled + 1)
    ensures RowsOf(frames, token) == RowsOf(frames[1..], token)
  {
    RowlessHead(frames, token);
  }

  /**
   * An agent that sends decodable stats messages, each within ReadWindow of
   * the previous one, has every one of them stored, in order, under the
   * connection's token: row i is the stamp of message i.
   */
  lemma TimelyStatsAreAllStored(frames: seq<Inbound>, token: string, start: Time)
    requires forall i :: 0 <= i < |frames| ==>
      frames[i].Data? && frames[i].size <= ReadLimit && RouteOf(frames[i].msg.envelope) == ToStats &&
      frames[i].msg.stats.Some? && frames[i].writeOk
    requires forall i :: 0 <= i < |frames| ==> frames[i].at <= Activity(frames, i, start) + ReadWindow
    ensures var s := Serve(frames, start + ReadWindow);
      s == Served(|frames|, InputEnded) &&
      |RowsOf(frames[..s.handled], token)| == |frames| &&
      (forall i :: 0 <= i < |frames| ==>
         RowsOf(frames[..s.handled], token)[i] == Stamp(frames[i].msg.stats.value.(token := token), frames[i].at)) &&
      forall r :: r in RowsOf(frames[..s.handled], token) ==> r.token == token
  {
    TimelyTrafficKeepsOpen(frames, start);
    assert frames[..|frames|] == frames;
    EveryStoredStatsMessageIsARow(frames, token);
    RowsCarryToken(frames, token);
  }

  // ---- the handler ----

  datatype Response =
    | Refused(status: nat, body: string)   // http.Error: the connection is never upgraded
    | UpgradeFailed                        // the upgrader has answered with its own error
    | Closed(served: Served)               // an upgraded session that has ended

  /**
   * Handling of one message that was read: a bad envelope is dropped, the
   * type "config" goes to saveHardwareConfig, anything else is decoded as
   * stats and stored under the connection's token.  No outcome ends the session.
   */
  method Dispatch(registry: Registry, store: TimeSeries, token: string, f: Inbound)
    requires f.Data?
    modifies registry, store
    ensures store.rows == old(store.rows) + RowOf(f, token)
    ensures registry.records == ConfigOf(old(registry.records), token, f)
  {
    var msg := f.msg;
    if msg.envelope.None? {
      return;  // bad payload
    }
    if msg.envelope.value == ConfigType {
      var _ := registry.SaveHardwareConfig(token, msg.asObject, f.writeOk);
    } else {
      if msg.stats.None? {
        return;  // bad stats payload
      }
      var row := msg.stats.value;
      row := row.(token := token);
      var _ := store.InsertStats(row, f.at, f.writeOk);
    }
  }

  /** `s` preceded by `n` handled events. */
  function Later(n: nat, s: Served): Served {
    s.(handled := n + s.handled)
  }

  /**
   * Event i, read before the deadline (and, for a message, within the
   * limit), is handled and the loop goes on with the deadline it sets.
   */
  lemma ServeStep(frames: seq<Inbound>, i: nat, deadline: Time, n: nat)
    requires i < |frames| && ReadError(frames[i], deadline).None?
    ensures Later(n, Serve(frames[i..], deadline)) == Later(n + 1, Serve(frames[i + 1..], frames[i].at + ReadWindow))
  {
  }

  /** Handling one more event extends the stored rows and the registry by that event's effect. */
  lemma PrefixStep(frames: seq<Inbound>, i: nat, token: string, records: Records)
    requires i < |frames|
    ensures RowsOf(frames[..i + 1], token) == RowsOf(frames[..i], token) + RowOf(frames[i], token)
    ensures ConfigsOf(records, token, frames[..i + 1]) == ConfigOf(ConfigsOf(records, token, frames[..i]), token, frames[i])
  {
    assert frames[..i + 1][..i] == frames[..i];
    assert frames[..i + 1][i] == frames[i];
  }

  /** The read loop of an upgraded connection whose read deadline is `deadline`. */
  method ReadLoop(registry: Registry, store: TimeSeries, token: string, deadline: Time, frames: seq<Inbound>)
    returns (s: Served)
    modifies registry, store
    ensures s == Serve(frames, deadline) && s.handled <= |frames|
    ensures store.rows == old(store.rows) + RowsOf(frames[..s.handled], token)
    ensures registry.records == ConfigsOf(old(registry.records), token, frames[..s.handled])
  {
    ServeWithin(frames, deadline);
    ghost var goal := Serve(frames, deadline);
    ghost var rows0, records0 := store.rows, registry.records;
    var readDeadline: Time := deadline;
    var i := 0;
    while i < |frames|
      invariant 0 <= i <= |frames|
      invariant goal == Later(i, Serve(frames[i..], readDeadline))
      invariant store.rows == rows0 + RowsOf(frames[..i], token)
      invariant registry.records == ConfigsOf(records0, token, frames[..i])
    {
      ghost var here := frames[i..];
      assert here[0] == frames[i];
      var err := ReadError(frames[i], readDeadline);
      if err.Some? {
        return Served(i, err.value);
      }
      ServeStep(frames, i, readDeadline, i);
      readDeadline := frames[i].at + ReadWindow;
      assert goal == Later(i + 1, Serve(frames[i + 1..], readDeadline));
      PrefixStep(frames, i, token, records0);
      if frames[i].Data? {
        Dispatch(registry, store, token, frames[i]);
      }
      i := i + 1;
    }
    assert frames[i..] == [];
    return Served(i, InputEnded);
  }

  /**
   * The handler for one request carrying `token`, validated at `now`; `f`
   * says which registry statements fail, `upgradeOk` whether the upgrade
   * succeeds, `upgradedAt` the clock once it has, from which the first read
   * deadline counts, and `frames` what the connection then delivers.
   */
  method HandleConnection(registry: Registry, store: TimeSeries, token: string, now: Time, f: Faults,
                          upgradeOk: bool, upgradedAt: Time, frames: seq<Inbound>) returns (resp: Response)
    requires now <= upgradedAt
    modifies registry, store
    ensures token == "" ==>
      resp == Refused(StatusUnauthorized, "missing token") && registry.records == old(registry.records) && store.rows == old(store.rows)
    ensures token != "" ==>
      var reg := Register(old(registry.records), token, now, f);
      (reg.err.Some? ==>
         resp == Refused(StatusUnauthorized, reg.err.value.Text()) && registry.records == reg.records && store.rows == old(store.rows)) &&
      (reg.err.None? && !upgradeOk ==>
         resp == UpgradeFailed && registry.records == reg.records && store.rows == old(store.rows)) &&
      (reg.err.None? && upgradeOk ==>
         var s := Serve(frames, upgradedAt + ReadWindow);
         s.handled <= |frames| && resp == Closed(s) &&
         store.rows == old(store.rows) + RowsOf(frames[..s.handled], token) &&
         registry.records == ConfigsOf(reg.records, token, frames[..s.handled]))
  {
    if token == "" {
      return Refused(StatusUnauthorized, "missing token");
    }
    var err := registry.ValidateAndRegister(token, now, f);
    if err.Some? {
      return Refused(StatusUnauthorized, err.value.Text());
    }
    if !upgradeOk {
      return UpgradeFailed;
    }
    var s := ReadLoop(registry, store, token, upgradedAt + ReadWindow, frames);
    return Closed(s);
  }
}
